=== FILE: README.md ===
# bayeslite shell core, modelled in Dafny

This project models the interactive shell of bayeslite (`shell/src/core.py`).
The shell is a line-oriented command loop over a BayesDB instance:

- a line whose first word is `.<name>` for a registered name runs that
  dot-command;
- any other line is BQL text, accumulated until it forms a complete
  statement and then executed (the model leaves out the commands `cmd.Cmd`
  itself provides; see "Left out").

The model is purely functional. A `Session` holds what the Python object
holds between lines:

- the prompt;
- the pending BQL buffer;
- the set of registered command names;
- the two trace flags.

Each operation maps a session and its input to a `Reply`: the new session,
the ordered list of `Event`s the shell emits (text written to its output
stream and calls into the engine), and whether the loop stops.

Three kinds of things are parameters rather than modelled, because their
code is not part of this model:

- The engine's answers come in as an `Oracles` value. It supplies BQL
  completeness, `casefold`, Python `repr`, table and generator existence,
  generator ids and model existence.
- The outcome of a guarded engine call comes in as an `ExecOutcome`.
- `cmd.Cmd`'s parsing of a line comes in as an `Input` of command word,
  argument and line.

Modules, following the structure of the source:

- `Options`: an optional value, for lookups and conversions that can fail.
- `Text`:
  - Python's `str.split()`, with whitespace being space and characters 9 to 13;
  - `' '.join`;
  - the byte-wise string order `sorted` uses;
  - `int(token)` and `str(n)` on decimal text.
- `State`: the session, events, prompts, farewell text, the report of a
  guarded call and the shape invariant of a session.
- `Accumulator`: `Shell.default`, and runs of many lines through it.
- `Registry`: `_installcmd`, the constructor's nine installs, lookup of a
  dot-command word, and `sorted(self._cmds)`.
- `Tracing`: `.trace` / `.untrace` and the engine subscriptions they drive.
- `Commands`: `.help`, the argument checks of `.csv`, `.codebook` and
  `.loadmodels`, and `.describe` with all its sub-commands.
- `Shell`: the constructor and one turn of the command loop.

Where the code and its own documentation disagree, the model follows the code:

- `.describe`'s usage line advertises `model(s)`, but only the keyword
  `models` is accepted. `.describe model g` is refused as an unknown kind,
  and `Commands.SingularModelRefused` states this.
- The engine calls made by `.describe` are not wrapped in
  `try`/`except`, unlike those of `.sql`, `.python`, the loaders and the
  accumulator. The model emits only their events, and the uncaught failure
  is listed under "Left out".
- `.help` with no arguments computes `max` over the registry, which fails
  on an empty one. `Commands.Help` therefore requires a non-empty registry
  in that case only. The constructor always registers nine names.

## Model

| member | source | states |
|---|---|---|
| Text.Split | shell/src/core.py:207 | every token is a non-empty run of non-whitespace, and the tokens concatenated are the line with its whitespace removed; that the runs are maximal is `Text.SplitSqueeze` |
| Text.SplitSqueeze | shell/src/core.py:207-210 | the tokens joined by single blanks are the line with each run of whitespace collapsed to one blank and the ends trimmed, so `split()` never breaks a word in two or merges two words |
| Text.SplitJoin | shell/src/core.py:207-212 | splitting words joined by single blanks gives back exactly those words |
| Text.NatToDecimal | shell/src/core.py:377-382 | the decimal text of a natural number is non-empty, all digits, without a leading zero, and denotes that number |
| Text.ParseInt | shell/src/core.py:368-373 | `int(token)` on a split token succeeds exactly when the token is one or more decimal digits, optionally after a single `+` or `-`; the value is negative only after `-`, so `+` alone and the empty token are rejected |
| Text.ParseIntOfDigits | shell/src/core.py:368-369 | `int` of a string of digits is the decimal value of those digits |
| Text.ParseIntIgnoresZerosAndSign | shell/src/core.py:368-369 | a leading zero or a `+` does not change the value `int` reads, and a `-` negates it, so `07` is 7 and `+5` is 5; with `ParseIntOfDigits` this fixes the value of every accepted token |
| Text.ParseIntToDecimal | shell/src/core.py:369-382 | `int` of the decimal text of any integer is that integer, so a model number reported back is the number that was parsed |
| Text.ParseIntRejectsNonDigit | shell/src/core.py:368-373 | a split token with a non-digit after its first character is rejected by `int` |
| Accumulator.Default | shell/src/core.py:77-99 | `EOF` stops with the farewell and leaves the session alone; any other line is appended newline-terminated and the completeness test sees exactly the old buffer plus that line; if complete, the buffer is emptied and the prompt reset first, then the whole text is executed once and its outcome reported, whatever it is; an incomplete one stays pending behind the continuation prompt; registry and trace flags never change and the session's shape invariant is kept |
| Accumulator.RunLines | shell/src/core.py:77-99 | many lines through the accumulator keep the registry and flags, keep the shape invariant, and stop only at an `EOF` line |
| Accumulator.StaysPending | shell/src/core.py:84-98 | lines none of which completes the statement are all kept in order, newline-terminated, with nothing executed |
| Accumulator.CompletesOnLastLine | shell/src/core.py:84-96 | a statement typed over several lines is executed exactly once, as the concatenation of all of them, and leaves the accumulator idle whatever the execution did |
| Accumulator.EofDiscards | shell/src/core.py:80-82 | after an `EOF` line nothing more is read and the pending buffer is never executed |
| Registry.Install | shell/src/core.py:59-63 | installing a name not yet registered adds exactly that name |
| Registry.InstallAll | shell/src/core.py:49-63 | a sequence of installs of distinct new names registers exactly those names, one more per install |
| Registry.BuiltinsDistinct | shell/src/core.py:49-57 | the nine names the constructor installs are pairwise distinct, so none of its installs fails the not-yet-registered assertion |
| Registry.InitialCommands | shell/src/core.py:41-57 | after construction exactly the nine built-in names are registered |
| Registry.Handler | shell/src/core.py:49-57 | each built-in name has the handler installed under it and no other name has one |
| Registry.NameInjective | shell/src/core.py:49-57 | distinct handlers are installed under distinct names |
| Registry.Lookup | shell/src/core.py:59-62 | a command word reaches one of the shell's own handlers exactly when it is a dot followed by a registered name, and then the handler of that name |
| Registry.Least | shell/src/core.py:110 | the chosen name is registered and precedes every other registered name |
| Registry.SortedNames | shell/src/core.py:110 | the listing is strictly ascending and holds exactly the registered names, once each |
| Registry.SortedListingUnique | shell/src/core.py:110 | only one listing is sorted, so `.help` prints the same lines whatever the order of installation |
| Tracing.Trace | shell/src/core.py:163-179 | `bql`/`sql` set that flag and subscribe the tracer only if it was off, leaving the other flag alone; any other argument only writes `Trace what?` |
| Tracing.Untrace | shell/src/core.py:181-197 | `bql`/`sql` clear that flag and unsubscribe only if it was on, leaving the other flag alone; any other argument only writes `Untrace what?` |
| Tracing.TraceIdempotent | shell/src/core.py:170-195 | repeating a trace or an untrace changes nothing and calls nothing |
| Tracing.Requests | shell/src/core.py:163-197 | any run of trace commands leaves the prompt, the pending buffer and the registry alone and never stops the loop |
| Tracing.FlagsAgreeWithEngine | shell/src/core.py:163-197 | under any interleaving the engine never gets a double subscribe or an unmatched unsubscribe, and its subscriptions always match the flags |
| Tracing.TraceTwiceUntraceTwice | shell/src/core.py:174-195 | two `.trace sql` then two `.untrace sql` reach the engine as one subscribe and one unsubscribe |
| Commands.HelpNamed | shell/src/core.py:117-125 | named help is shown for each registered name in order up to the first unregistered one, which is reported and ends the command |
| Commands.Help | shell/src/core.py:107-125 | with no arguments, one summary per registered name in ascending order and then the hint; otherwise the named help |
| Commands.RunLoader | shell/src/core.py:207-262 | the wrong number of tokens writes only the loader's usage line; the right number loads with exactly the tokens and reports the outcome; a load happens only then |
| Commands.LoaderGetsArguments | shell/src/core.py:207-257 | blank-separated arguments reach the loader unchanged |
| Commands.Unknown | shell/src/core.py:287-292 | the names reported missing are exactly the given names that do not exist |
| Commands.UnknownAppend | shell/src/core.py:288-292 | missing names are reported per occurrence and in order: the report for a list is the reports for its parts, one after the other |
| Commands.UnknownSingle | shell/src/core.py:288-292 | a single name is reported exactly when it does not exist |
| Commands.Column | shell/src/core.py:286-315 | each column test carries exactly one placeholder |
| Commands.QualifierPlaceholders | shell/src/core.py:284-315 | the OR-qualifier has exactly one placeholder per name |
| Commands.DescribeNamed | shell/src/core.py:276-330 | no names queries everything; any unknown names are each reported and nothing is queried; otherwise tables get their columns guaranteed, then the query runs with the names as parameters |
| Commands.QueriesWhenAllKnown | shell/src/core.py:295-304 | when every name exists, the last event is the query and no earlier event is one; it binds the names and has one placeholder per name |
| Commands.NoQueryWhenUnknown | shell/src/core.py:287-294 | when some name does not exist, no query is issued |
| Commands.DescribeQueriesOnlyKnown | shell/src/core.py:284-330 | a query is issued exactly when every name exists, with the names as its parameters and one placeholder each |
| Commands.ModelNumbers | shell/src/core.py:366-380 | the numbers are accepted exactly when every token parses and names an existing model, and then they are the parsed values in order; otherwise the first bad token is reported, after all earlier tokens passed |
| Commands.DescribeColumnsOf | shell/src/core.py:331-351 | columns are described exactly when one argument names an existing generator, by that generator's id; otherwise only a complaint is written |
| Commands.ColumnsAgreeWithGenerators | shell/src/core.py:305-340 | `.describe columns g` describes the columns exactly when `.describe generator g` would query, so both judge existence alike |
| Commands.DescribeModelsOf | shell/src/core.py:352-388 | models are described exactly when the generator exists and every model number is valid; the qualifier is `1` with no numbers and otherwise `modelno IN (...)` over the parsed numbers; a missing generator or the first bad model number is the one line written |
| Commands.ModelQualifierListsTokens | shell/src/core.py:366-382 | the `modelno IN (...)` list has one entry per token, and each entry parses back to the number its token parsed to |
| Commands.Describe | shell/src/core.py:264-391 | no tokens asks what to describe; the casefolded first token selects tables, generators, columns or models; anything else is reported as an unknown kind |
| Commands.SingularModelRefused | shell/src/core.py:264-391 | `.describe model g` is refused as an unknown kind although the usage line lists `model(s)` |
| Commands.DescribeMissingTable | shell/src/core.py:288-294 | describing a missing table writes only its `No such table` line and queries nothing |
| Shell.Init | shell/src/core.py:34-57 | a new shell shows the default prompt with nothing pending, exactly the nine built-in commands registered and neither trace active |
| Shell.Step | shell/src/core.py:59-99 | a registered dot-command never touches the pending statement or stops the loop and writes exactly what its handler writes; only `.trace`/`.untrace` change the flags; any other line goes to the accumulator; the registry never changes and the session invariant is kept |
| Shell.Run | shell/src/core.py:101-391 | every registered command writes and asks of the engine exactly what its handler does (`.help` the sorted summaries or named help, the loaders their arity check, `.describe` its checks, `.sql`/`.python` one guarded call), never stops the loop, and only `.trace`/`.untrace` change the session, and only its trace flags |
| Shell.LookupTracing | shell/src/core.py:56-62 | a command word reaches the `.trace` handler exactly when it is `.trace` and `trace` is registered, and likewise for `.untrace` |
| Shell.InitResolvesEveryCommand | shell/src/core.py:49-62 | in a new shell every built-in `.<name>` reaches the handler installed under that name |

## Left out

- `cmd.Cmd` itself is not part of this model. That covers line reading,
  `parseline`, `emptyline`'s repetition of the last command, completion,
  and its built-in `help`. A turn receives the command word, argument and
  line already split.
- The `cmdloop` banner and its restart after `KeyboardInterrupt` are left
  out (core.py:65-75), because they concern terminal interaction.
- Pretty-printing of cursors (`pretty.pp_cursor`) and the savepoints around
  it are left out. An engine call and its display are one event. For
  `.sql`, `.python` and the loaders, the reported outcome follows it.
  `.describe` reports nothing after its events.
- The text of SQL queries issued by `.describe` is left out. Its events
  carry the entity kind, the qualifier and the parameters, which are what
  the shell computes.
- `.python`'s `eval` and `.sql`'s execution are engine calls. Their results
  are the `ExecOutcome` parameter.
- The loaders' file I/O and the bayeslite loading functions are
  represented by the `Load` event and the outcome parameter.
- Python `repr`, `casefold`, the BQL completeness test and the engine's
  catalogue lookups are parameters in `Oracles`.
- Exceptions raised out of a command by unguarded engine calls are left
  out: those of `.describe`, and the subscribe and unsubscribe calls of
  `.trace` and `.untrace` (core.py:172, 176, 190, 194). Only the events
  issued are modelled.
- The tracer callbacks' output (`--> q b` and `==> q b`, core.py:157-161),
  written whenever a traced engine call runs, is not a separate event. For
  BQL statements, `.sql`, `.python` and the loaders it is part of the
  outcome's shown text; for `.describe` it is dropped.
- Text.ParseInt: models `int` on split tokens only. Python 2's `int` also
  strips surrounding whitespace, but a token from `str.split()` has none,
  so that case never reaches it here.
- Commands.Help: the padding and formatting of summary lines and the
  docstring text are left out; a summary or usage is one event naming the
  command.
- Shell.Step: a line whose command word is `help`, or that starts with
  `?`, reaches `cmd.Cmd`'s inherited `do_help` in the source (core.py:47-48
  notes the built-ins remain). The model sends such a line to the
  accumulator like any other word without a shell handler, because
  `cmd.Cmd` is not part of this model.
- Shell.Step: a name registered without a handler would fall through to
  the accumulator. This cannot happen, because every install sets the
  handler, and the model does not distinguish it.
- The unused `sql_prompt` and `python_prompt` class constants are left out.

=== FILE: accumulator.dfy ===
/**
 The statement accumulator: every line `cmd.Cmd` does not dispatch to a
 registered command, except the end-of-file marker `EOF`, is appended,
 newline-terminated, to the pending BQL buffer, and the buffer is executed once the completeness oracle accepts it.
 */
module Accumulator {
  import opened State

  /** The other parts of the session, which the accumulator never touches. */
  predicate SameRest(s: Session, t: Session) {
    t.cmds == s.cmds && t.traced == s.traced && t.sqlTraced == s.sqlTraced
  }

  /** `Shell.default(line)`. The line `EOF` ends the loop with the farewell
      and leaves the pending buffer unexecuted. Any other line is judged
      together with the buffer, newline-terminated: a complete statement
      empties the buffer and resets the prompt whatever its execution does,
      an incomplete one stays pending behind the continuation prompt. */
  function Default(s: Session, line: string, complete: string -> bool, outcome: ExecOutcome): (r: Reply)
    ensures line == "EOF" ==> r == Reply(s, [Write(Farewell)], true)
    ensures line != "EOF" ==> !r.stop && SameRest(s, r.session)
    ensures line != "EOF" && complete(s.buffer + line + "\n") ==>
      && r.session.buffer == []
      && r.session.prompt == DefaultPrompt
      && r.out == [Execute(s.buffer + line + "\n")] + Report(outcome)
    ensures line != "EOF" && !complete(s.buffer + line + "\n") ==>
      && r.session.buffer == s.buffer + line + "\n"
      && r.session.prompt == BqlPrompt
      && r.out == []
    ensures Wellformed(s) ==> Wellformed(r.session)
  {
    if line == "EOF" then
      Reply(s, [Write(Farewell)], true)
    else
      var bql := s.buffer + line + "\n";
      if complete(bql) then
        Reply(s.(buffer := [], prompt := DefaultPrompt), [Execute(bql)] + Report(outcome), false)
      else
        Reply(s.(buffer := bql, prompt := BqlPrompt), [], false)
  }

  /** Feeds `lines` to `Default` one by one until one of them stops the loop;
      `outcomes[i]` is how executing the buffer would end at line `i`. */
  function RunLines(s: Session, lines: seq<string>, complete: string -> bool, outcomes: seq<ExecOutcome>): (r: Reply)
    requires |outcomes| == |lines|
    ensures SameRest(s, r.session)
    ensures Wellformed(s) ==> Wellformed(r.session)
    ensures r.stop ==> "EOF" in lines
    decreases |lines|
  {
    if |lines| == 0 then Reply(s, [], false)
    else
      var first := Default(s, lines[0], complete, outcomes[0]);
      if first.stop then first
      else
        var rest := RunLines(first.session, lines[1..], complete, outcomes[1..]);
        Reply(rest.session, first.out + rest.out, rest.stop)
  }

  /** The text the lines leave in the buffer: each one followed by a newline. */
  function Terminated(lines: seq<string>): string {
    if |lines| == 0 then [] else lines[0] + "\n" + Terminated(lines[1..])
  }

  lemma {:induction false} TerminatedAppend(a: seq<string>, b: seq<string>)
    ensures Terminated(a + b) == Terminated(a) + Terminated(b)
    decreases |a|
  {
    if |a| == 0 {
      assert a + b == b;
    } else {
      assert (a + b)[1..] == a[1..] + b;
      TerminatedAppend(a[1..], b);
    }
  }

  /** Running two blocks of lines is running the first, then, unless it
      stopped, the second from where the first left off. */
  lemma {:induction false} RunAppend(s: Session, a: seq<string>, b: seq<string>, complete: string -> bool,
                                     oa: seq<ExecOutcome>, ob: seq<ExecOutcome>)
    requires |oa| == |a| && |ob| == |b|
    ensures RunLines(s, a + b, complete, oa + ob) ==
      var ra := RunLines(s, a, complete, oa);
      if ra.stop then ra
      else
        var rb := RunLines(ra.session, b, complete, ob);
        Reply(rb.session, ra.out + rb.out, rb.stop)
    decreases |a|
  {
    if |a| == 0 {
      assert a + b == b;
      assert oa + ob == ob;
    } else {
      assert (a + b)[0] == a[0];
      assert (a + b)[1..] == a[1..] + b;
      assert (oa + ob)[0] == oa[0];
      assert (oa + ob)[1..] == oa[1..] + ob;
      var first := Default(s, a[0], complete, oa[0]);
      if !first.stop {
        RunAppend(first.session, a[1..], b, complete, oa[1..], ob);
        var ra' := RunLines(first.session, a[1..], complete, oa[1..]);
        if !ra'.stop {
          var rb := RunLines(ra'.session, b, complete, ob);
          assert first.out + (ra'.out + rb.out) == (first.out + ra'.out) + rb.out;
        }
      }
    }
  }

  /** Lines none of which completes the statement are all kept, in order and
      newline-terminated, behind the continuation prompt; nothing runs. */
  lemma {:induction false} StaysPending(s: Session, lines: seq<string>, complete: string -> bool, outcomes: seq<ExecOutcome>)
    requires |outcomes| == |lines| > 0
    requires forall i :: 0 <= i < |lines| ==> lines[i] != "EOF"
    requires forall k :: 1 <= k <= |lines| ==> !complete(s.buffer + Terminated(lines[..k]))
    ensures RunLines(s, lines, complete, outcomes)
         == Reply(s.(buffer := s.buffer + Terminated(lines), prompt := BqlPrompt), [], false)
    decreases |lines|
  {
    var line := lines[0];
    assert lines[..1] == [line];
    assert Terminated([line]) == line + "\n" + Terminated([]);
    var s1 := s.(buffer := s.buffer + line + "\n", prompt := BqlPrompt);
    assert s.buffer + Terminated(lines[..1]) == s.buffer + line + "\n";
    assert Default(s, line, complete, outcomes[0]) == Reply(s1, [], false);
    assert lines == [line] + lines[1..];
    TerminatedAppend([line], lines[1..]);
    if |lines| > 1 {
      forall k | 1 <= k <= |lines[1..]|
        ensures !complete(s1.buffer + Terminated(lines[1..][..k]))
      {
        assert lines[..k + 1] == [line] + lines[1..][..k];
        TerminatedAppend([line], lines[1..][..k]);
        assert s1.buffer + Terminated(lines[1..][..k]) == s.buffer + Terminated(lines[..k + 1]);
      }
      StaysPending(s1, lines[1..], complete, outcomes[1..]);
      assert s1.buffer + Terminated(lines[1..]) == s.buffer + Terminated(lines);
    } else {
      assert lines[1..] == [];
    }
  }

  lemma RunOne(s: Session, line: string, complete: string -> bool, outcome: ExecOutcome)
    ensures RunLines(s, [line], complete, [outcome]) == Default(s, line, complete, outcome)
  {
    assert [line][1..] == [];
    assert [outcome][1..] == [];
    var d := Default(s, line, complete, outcome);
    assert d.out + [] == d.out;
  }

  lemma RunEofFirst(s: Session, post: seq<string>, complete: string -> bool, outcome: ExecOutcome, opost: seq<ExecOutcome>)
    requires |opost| == |post|
    ensures RunLines(s, ["EOF"] + post, complete, [outcome] + opost) == Reply(s, [Write(Farewell)], true)
  {
    assert (["EOF"] + post)[0] == "EOF";
    assert ([outcome] + opost)[0] == outcome;
  }

  /** A block of lines that leaves nothing written and the loop running,
      followed by one more line, is that line's step from where the block
      left the session. */
  lemma RunThenOne(s: Session, pending: seq<string>, last: string, complete: string -> bool,
                   opending: seq<ExecOutcome>, olast: ExecOutcome, mid: Session)
    requires |opending| == |pending|
    requires RunLines(s, pending, complete, opending) == Reply(mid, [], false)
    requires !Default(mid, last, complete, olast).stop
    ensures RunLines(s, pending + [last], complete, opending + [olast]) == Default(mid, last, complete, olast)
  {
    var ra := RunLines(s, pending, complete, opending);
    RunOne(mid, last, complete, olast);
    var rb := RunLines(mid, [last], complete, [olast]);
    RunAppend(s, pending, [last], complete, opending, [olast]);
    assert ra.out + rb.out == rb.out;
  }

  lemma TerminatedSnoc(b: string, pending: seq<string>, last: string)
    ensures b + Terminated(pending) + last + "\n" == b + Terminated(pending + [last])
  {
    TerminatedAppend(pending, [last]);
    assert Terminated([last]) == last + "\n" + Terminated([]);
  }

  /** A statement typed over several lines, completed only by its last line,
      is executed exactly once, as the whole newline-terminated text, and the
      accumulator is idle afterwards however the execution ended. */
  lemma CompletesOnLastLine(s: Session, pending: seq<string>, last: string, complete: string -> bool,
                            opending: seq<ExecOutcome>, olast: ExecOutcome)
    requires |opending| == |pending|
    requires forall i :: 0 <= i < |pending| ==> pending[i] != "EOF"
    requires last != "EOF"
    requires forall k :: 1 <= k <= |pending| ==> !complete(s.buffer + Terminated(pending[..k]))
    requires complete(s.buffer + Terminated(pending + [last]))
    ensures RunLines(s, pending + [last], complete, opending + [olast])
         == Reply(s.(buffer := [], prompt := DefaultPrompt),
                  [Execute(s.buffer + Terminated(pending + [last]))] + Report(olast),
                  false)
  {
    var text := s.buffer + Terminated(pending + [last]);
    TerminatedSnoc(s.buffer, pending, last);
    var mid := s;
    if |pending| > 0 {
      StaysPending(s, pending, complete, opending);
      mid := s.(buffer := s.buffer + Terminated(pending), prompt := BqlPrompt);
    }
    assert mid.buffer + last + "\n" == text;
    var d := Default(mid, last, complete, olast);
    RunThenOne(s, pending, last, complete, opending, olast, mid);
    assert d.out == [Execute(text)] + Report(olast);
    assert d.session == s.(buffer := [], prompt := DefaultPrompt);
  }

  /** An `EOF` line ends the loop wherever it comes: the lines after it are
      never read, and whatever was pending is dropped without being run. */
  lemma EofDiscards(s: Session, pre: seq<string>, post: seq<string>, complete: string -> bool,
                    opre: seq<ExecOutcome>, oeof: ExecOutcome, opost: seq<ExecOutcome>)
    requires |opre| == |pre| && |opost| == |post|
    requires !RunLines(s, pre, complete, opre).stop
    ensures var before := RunLines(s, pre, complete, opre);
      RunLines(s, pre + (["EOF"] + post), complete, opre + ([oeof] + opost))
        == Reply(before.session, before.out + [Write(Farewell)], true)
  {
    RunAppend(s, pre, ["EOF"] + post, complete, opre, [oeof] + opost);
    var before := RunLines(s, pre, complete, opre);
    RunEofFirst(before.session, post, complete, oeof, opost);
  }
}

=== FILE: commands.dfy ===
/**
 The argument handling of the dot-commands: `.help`, the three loaders
 behind `.csv`, `.codebook` and `.loadmodels`, and `.describe`. The engine
 calls themselves are events; what the shell checks and builds before
 making them is modelled exactly.
 */
module Commands {
  import opened Options
  import opened Text
  import opened State
  import opened Registry

  // ----- .help -----

  const HelpHint := "Type `.help <cmd>' for help on the command <cmd>.\n"

  function NoSuchCommand(name: string, repr: string -> string): string {
    "No such command " + repr(name) + ".\n"
  }

  /** One summary line per name, in the given order. */
  function Summaries(names: seq<string>): (r: seq<Event>)
    ensures |r| == |names|
    ensures forall i :: 0 <= i < |names| ==> r[i] == Summary(names[i])
  {
    seq(|names|, i requires 0 <= i < |names| => Summary(names[i]))
  }

  /** `.help name...`: the usage of each named command in turn, stopping at
      the first name that is not registered, which is reported instead. */
  function HelpNamed(cmds: set<string>, tokens: seq<string>, repr: string -> string): (r: seq<Event>)
    ensures |r| <= |tokens|
    ensures forall i :: 0 <= i < |r| ==>
      r[i] == (if tokens[i] in cmds then Usage(tokens[i]) else Write(NoSuchCommand(tokens[i], repr)))
    ensures forall i :: 0 <= i < |r| - 1 ==> tokens[i] in cmds
    ensures |r| < |tokens| ==> 0 < |r| && tokens[|r| - 1] !in cmds
    decreases |tokens|
  {
    if |tokens| == 0 then []
    else if tokens[0] !in cmds then [Write(NoSuchCommand(tokens[0], repr))]
    else [Usage(tokens[0])] + HelpNamed(cmds, tokens[1..], repr)
  }

  /** What `.help` writes: without arguments the summaries of the sorted
      registry and the hint, otherwise the named help. */
  ghost predicate HelpOutput(cmds: set<string>, line: string, repr: string -> string, out: seq<Event>) {
    if Split(line) == [] then
      exists names :: SortedListing(names, cmds) && out == Summaries(names) + [Write(HelpHint)]
    else
      out == HelpNamed(cmds, Split(line), repr)
  }

  /** `dot_help(line)`. Without arguments: one summary line per registered
      name, ascending and each exactly once, then the hint. The listing pads
      to the longest name, which needs at least one name. */
  method Help(cmds: set<string>, line: string, repr: string -> string) returns (out: seq<Event>)
    requires Split(line) == [] ==> cmds != {}
    ensures HelpOutput(cmds, line, repr, out)
  {
    var tokens := Split(line);
    if |tokens| == 0 {
      var names := SortedNames(cmds);
      out := Summaries(names) + [Write(HelpHint)];
    } else {
      out := HelpNamed(cmds, tokens, repr);
    }
  }

  // ----- .csv, .codebook, .loadmodels -----

  function Arity(l: Loader): nat {
    match l
    case CsvFile => 2
    case CodebookFile => 2
    case LegacyModels => 3
  }

  function UsageLine(l: Loader): string {
    match l
    case CsvFile => "Usage: .csv <table> </path/to/data.csv>\n"
    case CodebookFile => "Usage: .codebook <table> </path/to/codebook.csv>\n"
    case LegacyModels => "Usage: .loadmodels <generator> <table> </path/to/models.pkl.gz>\n"
  }

  /** `dot_csv`, `dot_codebook`, `dot_loadmodels`: with exactly the expected
      number of tokens the loader is called on them, in order, and a failure
      is reported; with any other number only the usage line is written and
      no loader is called. */
  function RunLoader(l: Loader, line: string, outcome: ExecOutcome): (r: seq<Event>)
    ensures |Split(line)| != Arity(l) ==> r == [Write(UsageLine(l))]
    ensures |Split(line)| == Arity(l) ==> r == [Load(l, Split(line))] + Report(outcome)
    ensures (exists i :: 0 <= i < |r| && r[i].Load?) <==> |Split(line)| == Arity(l)
  {
    var tokens := Split(line);
    if |tokens| != Arity(l) then [Write(UsageLine(l))]
    else
      var r := [Load(l, tokens)] + Report(outcome);
      assert r[0].Load?;
      r
  }

  /** Arguments typed separated by blanks reach the loader as typed. */
  lemma LoaderGetsArguments(l: Loader, args: seq<string>, outcome: ExecOutcome)
    requires |args| == Arity(l)
    requires forall i :: 0 <= i < |args| ==> IsWord(args[i])
    ensures RunLoader(l, Join(args, " "), outcome) == [Load(l, args)] + Report(outcome)
  {
    SplitJoin(args);
  }

  // ----- .describe -----

  function Exists(o: Oracles, entity: Entity, name: string): bool {
    match entity
    case Table => o.hasTable(name)
    case Generator => o.hasGenerator(name)
  }

  /** The names that do not exist, in order, repeats kept. */
  function Unknown(o: Oracles, entity: Entity, names: seq<string>): (r: seq<string>)
    ensures |r| <= |names|
    ensures forall n :: n in r <==> n in names && !Exists(o, entity, n)
    decreases |names|
  {
    if |names| == 0 then []
    else
      var rest := Unknown(o, entity, names[1..]);
      assert forall n :: n in names <==> n == names[0] || n in names[1..];
      if Exists(o, entity, names[0]) then rest else [names[0]] + rest
  }

  /** Missing names are reported one per occurrence, in order: the report
      for a list is the reports for its parts, one after the other. */
  lemma {:induction false} UnknownAppend(o: Oracles, entity: Entity, a: seq<string>, b: seq<string>)
    ensures Unknown(o, entity, a + b) == Unknown(o, entity, a) + Unknown(o, entity, b)
    decreases |a|
  {
    if |a| == 0 {
      assert a + b == b;
    } else {
      assert (a + b)[0] == a[0];
      assert (a + b)[1..] == a[1..] + b;
      UnknownAppend(o, entity, a[1..], b);
    }
  }

  /** A single name is reported exactly when it does not exist. */
  lemma UnknownSingle(o: Oracles, entity: Entity, name: string)
    ensures Unknown(o, entity, [name]) == if Exists(o, entity, name) then [] else [name]
  {
    assert [name][1..] == [];
  }

  function NoSuchText(o: Oracles, entity: Entity, name: string): string {
    match entity
    case Table => "No such table: " + o.repr(name) + "\n"
    case Generator => "No such generator: " + o.repr(name) + "\n"
  }

  /** The column each placeholder of the `WHERE` qualifier compares. */
  function Column(entity: Entity): (c: string)
    ensures Count('?', c) == 1
  {
    match entity
    case Table => "tabname = ?"
    case Generator => "name = ?"
  }

  function Repeat(x: string, n: nat): (r: seq<string>)
    ensures |r| == n && forall i :: 0 <= i < n ==> r[i] == x
  {
    seq(n, _ => x)
  }

  /** One column test per name, joined by `OR` and wrapped in parentheses. */
  function Qualifier(entity: Entity, n: nat): string {
    "(" + Join(Repeat(Column(entity), n), " OR ") + ")"
  }

  lemma {:induction false} JoinRepeatCount(x: string, n: nat)
    requires Count('?', x) == 1
    ensures Count('?', Join(Repeat(x, n), " OR ")) == n
    decreases n
  {
    if n == 1 {
      assert Join(Repeat(x, 1), " OR ") == x;
    } else if n > 1 {
      assert Repeat(x, n)[1..] == Repeat(x, n - 1);
      var tail := Join(Repeat(x, n - 1), " OR ");
      assert Join(Repeat(x, n), " OR ") == x + " OR " + tail;
      CountAppend('?', x + " OR ", tail);
      CountAppend('?', x, " OR ");
      JoinRepeatCount(x, n - 1);
    }
  }

  /** The qualifier has one placeholder per name, so the query binds every
      name it is given and no other. */
  lemma QualifierPlaceholders(entity: Entity, n: nat)
    ensures Count('?', Qualifier(entity, n)) == n
  {
    var inner := Join(Repeat(Column(entity), n), " OR ");
    JoinRepeatCount(Column(entity), n);
    CountAppend('?', "(" + inner, ")");
    CountAppend('?', "(", inner);
  }

  /** `bayesdb_table_guarantee_columns` for each named table; nothing for
      generators. */
  function Guards(entity: Entity, names: seq<string>): (r: seq<Event>)
    ensures |r| == (if entity == Table then |names| else 0)
    ensures forall i :: 0 <= i < |r| ==> r[i] == GuaranteeColumns(names[i])
  {
    if entity == Table then seq(|names|, i requires 0 <= i < |names| => GuaranteeColumns(names[i])) else []
  }

  /** `.describe table(s)|generator(s) [name...]`. Without names, everything
      is described. With names, every unknown name is reported, in order,
      and then nothing is queried; if all are known, the columns of each
      table are guaranteed and one query binds the names to the qualifier. */
  function DescribeNamed(o: Oracles, entity: Entity, names: seq<string>): (r: seq<Event>)
    ensures names == [] ==> r == [DescribeEntities(entity, "1", [])]
    ensures Unknown(o, entity, names) != [] ==>
      var unknown := Unknown(o, entity, names);
      && |r| == |unknown|
      && forall i :: 0 <= i < |r| ==> r[i] == Write(NoSuchText(o, entity, unknown[i]))
    ensures names != [] && Unknown(o, entity, names) == [] ==>
      var guarded := if entity == Table then |names| else 0;
      && |r| == guarded + 1
      && (forall i :: 0 <= i < guarded ==> r[i] == GuaranteeColumns(names[i]))
      && r[guarded] == DescribeEntities(entity, Qualifier(entity, |names|), names)
  {
    if |names| == 0 then [DescribeEntities(entity, "1", [])]
    else
      var unknown := Unknown(o, entity, names);
      if |unknown| > 0 then
        seq(|unknown|, i requires 0 <= i < |unknown| => Write(NoSuchText(o, entity, unknown[i])))
      else
        Guards(entity, names) + [DescribeEntities(entity, Qualifier(entity, |names|), names)]
  }

  predicate Queries(r: seq<Event>) {
    exists i :: 0 <= i < |r| && r[i].DescribeEntities?
  }

  /** Behind table guards, the one query is the last event. */
  lemma QueryIsLast(g: seq<Event>, q: Event)
    requires forall i :: 0 <= i < |g| ==> g[i].GuaranteeColumns?
    requires q.DescribeEntities?
    ensures Queries(g + [q])
    ensures forall e :: e in g + [q] && e.DescribeEntities? ==> e == q
    ensures forall i :: 0 <= i < |g| ==> !(g + [q])[i].DescribeEntities?
  {
    assert (g + [q])[|g|] == q;
  }

  lemma QueriesWhenAllKnown(o: Oracles, entity: Entity, names: seq<string>)
    requires names != [] && Unknown(o, entity, names) == []
    ensures Queries(DescribeNamed(o, entity, names))
    ensures forall e :: e in DescribeNamed(o, entity, names) && e.DescribeEntities? ==>
      e.params == names && Count('?', e.qualifier) == |names|
    ensures var r := DescribeNamed(o, entity, names);
      && |r| > 0
      && r[|r| - 1].DescribeEntities?
      && forall i :: 0 <= i < |r| - 1 ==> !r[i].DescribeEntities?
  {
    var r := DescribeNamed(o, entity, names);
    var last := if entity == Table then |names| else 0;
    var q := DescribeEntities(entity, Qualifier(entity, |names|), names);
    QueryIsLast(r[..last], q);
    assert r == r[..last] + [q];
    QualifierPlaceholders(entity, |names|);
  }

  lemma NoQueryWhenUnknown(o: Oracles, entity: Entity, names: seq<string>)
    requires Unknown(o, entity, names) != []
    ensures !Queries(DescribeNamed(o, entity, names))
  {
    var r := DescribeNamed(o, entity, names);
    assert names != [];
    forall i | 0 <= i < |r| ensures !r[i].DescribeEntities? {
    }
  }

  /** A query is made exactly when every named entity exists, and then its
      qualifier has as many placeholders as it binds names. */
  lemma DescribeQueriesOnlyKnown(o: Oracles, entity: Entity, names: seq<string>)
    ensures Queries(DescribeNamed(o, entity, names)) <==> (forall n :: n in names ==> Exists(o, entity, n))
    ensures forall e :: e in DescribeNamed(o, entity, names) && e.DescribeEntities? ==>
      e.params == names && Count('?', e.qualifier) == |names|
  {
    var unknown := Unknown(o, entity, names);
    if names == [] {
      assert DescribeNamed(o, entity, names)[0].DescribeEntities?;
      assert Count('?', "1") == 0;
    } else if unknown == [] {
      QueriesWhenAllKnown(o, entity, names);
    } else {
      NoQueryWhenUnknown(o, entity, names);
      assert unknown[0] in unknown;
    }
  }

  /** Why a model-number token is refused, or None if it is accepted. */
  function ModelComplaint(o: Oracles, generatorId: int, token: string): Option<string> {
    match ParseInt(token)
    case None => Some("Invalid model number: " + token + "\n")
    case Some(n) => if o.hasModel(generatorId, n) then None else Some("No such model: " + IntToDecimal(n) + "\n")
  }

  datatype Checked = Numbers(numbers: seq<int>) | Rejected(index: nat, message: string)

  /** The model-number loop of `.describe models`: parses each token and
      checks the model exists, stopping at the first token refused. */
  function ModelNumbers(o: Oracles, generatorId: int, tokens: seq<string>): (r: Checked)
    ensures r.Numbers? <==> forall i :: 0 <= i < |tokens| ==> ModelComplaint(o, generatorId, tokens[i]).None?
    ensures r.Numbers? ==>
      && |r.numbers| == |tokens|
      && forall i :: 0 <= i < |tokens| ==> ParseInt(tokens[i]) == Some(r.numbers[i])
    ensures r.Rejected? ==>
      && r.index < |tokens|
      && (forall j :: 0 <= j < r.index ==> ModelComplaint(o, generatorId, tokens[j]).None?)
      && ModelComplaint(o, generatorId, tokens[r.index]) == Some(r.message)
    decreases |tokens|
  {
    if |tokens| == 0 then Numbers([])
    else
      match ModelComplaint(o, generatorId, tokens[0])
      case Some(message) => Rejected(0, message)
      case None =>
        match ModelNumbers(o, generatorId, tokens[1..])
        case Numbers(ns) => Numbers([ParseInt(tokens[0]).value] + ns)
        case Rejected(i, message) => Rejected(i + 1, message)
  }

  function Decimals(ns: seq<int>): (r: seq<string>)
    ensures |r| == |ns| && forall i :: 0 <= i < |ns| ==> r[i] == IntToDecimal(ns[i])
  {
    seq(|ns|, i requires 0 <= i < |ns| => IntToDecimal(ns[i]))
  }

  /** The decimals of the model numbers, comma-separated, inside `modelno IN (...)`. */
  function ModelQualifier(ns: seq<int>): string {
    "modelno IN (" + Join(Decimals(ns), ",") + ")"
  }

  /** The qualifier lists exactly the model numbers the tokens denote, in
      order: each listed decimal parses back to what its token parsed to. */
  lemma ModelQualifierListsTokens(o: Oracles, generatorId: int, tokens: seq<string>)
    requires ModelNumbers(o, generatorId, tokens).Numbers?
    ensures var listed := Decimals(ModelNumbers(o, generatorId, tokens).numbers);
      && |listed| == |tokens|
      && forall i :: 0 <= i < |tokens| ==> ParseInt(listed[i]) == ParseInt(tokens[i])
  {
    var ns := ModelNumbers(o, generatorId, tokens).numbers;
    forall i | 0 <= i < |tokens|
      ensures ParseInt(Decimals(ns)[i]) == ParseInt(tokens[i])
    {
      ParseIntToDecimal(ns[i]);
    }
  }

  /** `.describe columns <generator>`: exactly one argument naming an
      existing generator is queried by its id; anything else only writes a
      complaint. */
  function DescribeColumnsOf(o: Oracles, args: seq<string>): (r: seq<Event>)
    ensures |r| == 1
    ensures r[0].DescribeColumns? <==> |args| == 1 && o.hasGenerator(args[0])
    ensures r[0].DescribeColumns? ==> r[0].generatorId == o.generatorId(args[0])
    ensures |args| != 1 ==> r == [Write("Describe columns of what generator?\n")]
    ensures |args| == 1 && !o.hasGenerator(args[0]) ==> r == [Write("No such generator: " + args[0] + "\n")]
  {
    if |args| != 1 then [Write("Describe columns of what generator?\n")]
    else if !o.hasGenerator(args[0]) then [Write("No such generator: " + args[0] + "\n")]
    else [DescribeColumns(o.generatorId(args[0]))]
  }

  /** `.describe models <generator> [modelno...]`: all models, or only the
      listed ones once every token is a number of an existing model. */
  function DescribeModelsOf(o: Oracles, args: seq<string>): (r: seq<Event>)
    ensures |args| == 0 ==> r == [Write("Describe models of what generator?\n")]
    ensures |args| > 0 && !o.hasGenerator(args[0]) ==> r == [Write("No such generator: " + args[0] + "\n")]
    ensures |r| == 1
    ensures r[0].DescribeModels? <==>
      && |args| > 0
      && o.hasGenerator(args[0])
      && forall i :: 1 <= i < |args| ==> ModelComplaint(o, o.generatorId(args[0]), args[i]).None?
    ensures r[0].DescribeModels? ==> r[0].generatorId == o.generatorId(args[0])
    ensures r[0].DescribeModels? ==>
      r[0].qualifier == (if |args| == 1 then "1" else ModelQualifier(ModelNumbers(o, o.generatorId(args[0]), args[1..]).numbers))
    ensures |args| > 1 && o.hasGenerator(args[0]) && ModelNumbers(o, o.generatorId(args[0]), args[1..]).Rejected? ==>
      r == [Write(ModelNumbers(o, o.generatorId(args[0]), args[1..]).message)]
  {
    if |args| == 0 then [Write("Describe models of what generator?\n")]
    else if !o.hasGenerator(args[0]) then [Write("No such generator: " + args[0] + "\n")]
    else
      var id := o.generatorId(args[0]);
      if |args| == 1 then [DescribeModels(id, "1")]
      else
        var checked := ModelNumbers(o, id, args[1..]);
        assert forall i :: 1 <= i < |args| ==> args[i] == args[1..][i - 1];
        match checked
        case Rejected(_, message) => [Write(message)]
        case Numbers(ns) => [DescribeModels(id, ModelQualifier(ns))]
  }

  /** `dot_describe(line)`. The kind keyword is compared after case folding;
      only `columns` and `models` are accepted for those two kinds. */
  function Describe(o: Oracles, line: string): (r: seq<Event>)
    ensures Split(line) == [] ==> r == [Write("Describe what, pray tell?\n")]
    ensures Split(line) != [] ==>
      var tokens := Split(line);
      var kind := o.casefold(tokens[0]);
      && (kind == "table" || kind == "tables" ==> r == DescribeNamed(o, Table, tokens[1..]))
      && (kind == "generator" || kind == "generators" ==> r == DescribeNamed(o, Generator, tokens[1..]))
      && (kind == "columns" ==> r == DescribeColumnsOf(o, tokens[1..]))
      && (kind == "models" ==> r == DescribeModelsOf(o, tokens[1..]))
      && (kind !in {"table", "tables", "generator", "generators", "columns", "models"} ==>
            r == [Write("I don't know what a " + o.repr(tokens[0]) + " is.\n")])
  {
    var tokens := Split(line);
    if |tokens| == 0 then [Write("Describe what, pray tell?\n")]
    else
      var kind := o.casefold(tokens[0]);
      if kind == "table" || kind == "tables" then DescribeNamed(o, Table, tokens[1..])
      else if kind == "generator" || kind == "generators" then DescribeNamed(o, Generator, tokens[1..])
      else if kind == "columns" then DescribeColumnsOf(o, tokens[1..])
      else if kind == "models" then DescribeModelsOf(o, tokens[1..])
      else [Write("I don't know what a " + o.repr(tokens[0]) + " is.\n")]
  }

  /** Only the plural `models` is a describe keyword: `.describe model g`
      is refused as an unknown kind although the usage text says `model(s)`. */
  lemma SingularModelRefused(o: Oracles, generator: string)
    requires IsWord(generator)
    requires o.casefold("model") == "model"
    ensures Describe(o, "model " + generator) == [Write("I don't know what a " + o.repr("model") + " is.\n")]
  {
    assert IsWord("model");
    SplitJoin(["model", generator]);
    assert Join(["model", generator], " ") == "model " + generator;
  }

  /** `.describe table nosuch` for a table that does not exist reports it and
      queries nothing. */
  lemma DescribeMissingTable(o: Oracles, name: string)
    requires IsWord(name) && !o.hasTable(name)
    requires o.casefold("table") == "table"
    ensures Describe(o, "table " + name) == [Write("No such table: " + o.repr(name) + "\n")]
  {
    assert IsWord("table");
    SplitJoin(["table", name]);
    assert Join(["table", name], " ") == "table " + name;
    assert ["table", name][1..] == [name];
    assert Unknown(o, Table, [name]) == [name];
  }

  /** `.describe columns g` and `.describe generator g` agree on which
      generators exist: the columns are described exactly when the
      generator query is made. */
  lemma ColumnsAgreeWithGenerators(o: Oracles, g: string)
    requires IsWord(g)
    requires o.casefold("columns") == "columns" && o.casefold("generator") == "generator"
    ensures Describe(o, "columns " + g)[0].DescribeColumns? <==> Queries(Describe(o, "generator " + g))
  {
    assert IsWord("columns") && IsWord("generator");
    SplitJoin(["columns", g]);
    assert Join(["columns", g], " ") == "columns " + g;
    assert ["columns", g][1..] == [g];
    SplitJoin(["generator", g]);
    assert Join(["generator", g], " ") == "generator " + g;
    assert ["generator", g][1..] == [g];
    DescribeQueriesOnlyKnown(o, Generator, [g]);
  }
}

=== FILE: options.dfy ===
/**
 An optional value, used for lookups that may find nothing and for
 conversions that may fail.
 */
module Options {
  datatype Option<T> = None | Some(value: T)
}

=== FILE: registry.dfy ===
/**
 The command registry: the set of dot-command names the constructor
 installs, lookup of a dot-prefixed command word, and the sorted listing
 `.help` prints.
 */
module Registry {
  import opened Options
  import opened Text

  /** The handlers the constructor installs, one per built-in name. */
  datatype Command =
    | CodebookCommand | CsvCommand | DescribeCommand | HelpCommand | LoadModelsCommand
    | PythonCommand | SqlCommand | TraceCommand | UntraceCommand

  function Name(c: Command): string {
    match c
    case CodebookCommand => "codebook"
    case CsvCommand => "csv"
    case DescribeCommand => "describe"
    case HelpCommand => "help"
    case LoadModelsCommand => "loadmodels"
    case PythonCommand => "python"
    case SqlCommand => "sql"
    case TraceCommand => "trace"
    case UntraceCommand => "untrace"
  }

  /** The handlers, in the order the constructor installs them. */
  const Handlers: seq<Command> := [
    CodebookCommand, CsvCommand, DescribeCommand, HelpCommand, LoadModelsCommand,
    PythonCommand, SqlCommand, TraceCommand, UntraceCommand]

  lemma HandlerListed(c: Command)
    ensures c in Handlers
  {
    var i := match c
      case CodebookCommand => 0 case CsvCommand => 1 case DescribeCommand => 2
      case HelpCommand => 3 case LoadModelsCommand => 4 case PythonCommand => 5
      case SqlCommand => 6 case TraceCommand => 7 case UntraceCommand => 8;
    assert Handlers[i] == c;
  }

  function Names(handlers: seq<Command>): (r: seq<string>)
    ensures |r| == |handlers| && forall i :: 0 <= i < |r| ==> r[i] == Name(handlers[i])
  {
    if |handlers| == 0 then [] else [Name(handlers[0])] + Names(handlers[1..])
  }

  /** The names the constructor installs, in its order. */
  const Builtins: seq<string> := Names(Handlers)

  predicate Distinct(names: seq<string>) {
    forall i, j :: 0 <= i < j < |names| ==> names[i] != names[j]
  }

  /** `_installcmd(name, ...)`: only a name not yet registered may be
      installed; afterwards it is registered and nothing else changed. */
  function Install(cmds: set<string>, name: string): (r: set<string>)
    requires name !in cmds
    ensures name in r && cmds <= r
    ensures |r| == |cmds| + 1
    ensures forall n :: n in r && n != name ==> n in cmds
  {
    cmds + {name}
  }

  /** Installs `names` one after the other. Each install's precondition
      holds exactly when the names are pairwise distinct and new. */
  function InstallAll(cmds: set<string>, names: seq<string>): (r: set<string>)
    requires Distinct(names)
    requires forall i :: 0 <= i < |names| ==> names[i] !in cmds
    ensures |r| == |cmds| + |names|
    ensures forall n :: n in r <==> n in cmds || n in names
    decreases |names|
  {
    if |names| == 0 then cmds
    else InstallAll(Install(cmds, names[0]), names[1..])
  }

  /** The constructor's nine names are pairwise distinct, so none of its
      installs trips the "already registered" assertion. */
  lemma BuiltinsDistinct()
    ensures Distinct(Builtins)
  {
    forall i, j | 0 <= i < j < |Builtins|
      ensures Builtins[i] != Builtins[j]
    {
      NameInjective(Handlers[i], Handlers[j]);
    }
  }

  /** The registry right after construction: the nine built-in names. */
  function InitialCommands(): (r: set<string>)
    ensures |r| == 9
    ensures forall n :: n in r <==> n in Builtins
  {
    BuiltinsDistinct();
    InstallAll({}, Builtins)
  }

  /** Every handler is installed under a built-in name. */
  lemma NameIsBuiltin(c: Command)
    ensures Name(c) in Builtins
  {
    HandlerListed(c);
    var i :| 0 <= i < |Handlers| && Handlers[i] == c;
    assert Builtins[i] == Name(c);
  }

  /** Distinct handlers are installed under distinct names. */
  lemma NameInjective(a: Command, b: Command)
    ensures a != b ==> Name(a) != Name(b)
  {
    if a != b {
      // No two names agree on both their first letter and their length.
      assert Name(a)[0] != Name(b)[0] || |Name(a)| != |Name(b)|;
    }
  }

  /** The first of `handlers` installed under `name`. */
  function Find(handlers: seq<Command>, name: string): (r: Option<Command>)
    ensures r.Some? ==> r.value in handlers && Name(r.value) == name
    ensures r.None? ==> forall c :: c in handlers ==> Name(c) != name
    decreases |handlers|
  {
    if |handlers| == 0 then None
    else if Name(handlers[0]) == name then Some(handlers[0])
    else Find(handlers[1..], name)
  }

  /** The handler installed under `name`: the one command of that name, if
      there is one. */
  function Handler(name: string): (r: Option<Command>)
    ensures r.Some? ==> Name(r.value) == name
    ensures forall c :: Name(c) == name ==> r == Some(c)
  {
    var r := Find(Handlers, name);
    forall c | Name(c) == name
      ensures r == Some(c)
    {
      HandlerListed(c);
      if r.Some? {
        NameInjective(r.value, c);
      }
    }
    r
  }

  /** The shell's own handler a command word reaches: `cmd.Cmd` looks up the
      attribute `do_<word>`, and the shell defines `do_.<name>` exactly for
      the names it installed, so the word must be a dot followed by a
      registered name. `cmd.Cmd`'s inherited commands (`help`, `?`) are not
      among these. */
  function Lookup(cmds: set<string>, word: string): (r: Option<Command>)
    ensures r.Some? ==> |word| > 0 && word[0] == '.' && word[1..] in cmds
    ensures r.Some? ==> word == "." + Name(r.value)
    ensures forall c :: Name(c) in cmds && word == "." + Name(c) ==> r == Some(c)
  {
    if |word| > 0 && word[0] == '.' && word[1..] in cmds then
      var h := Handler(word[1..]);
      if h.Some? then
        assert word == [word[0]] + word[1..];
        h
      else None
    else None
  }

  /** `names` is `sorted(cmds)`: ascending, hence without repeats, and made
      of exactly the registered names. */
  predicate SortedListing(names: seq<string>, cmds: set<string>) {
    && StrictlySorted(names)
    && (forall n :: n in names ==> n in cmds)
    && (forall n :: n in cmds ==> n in names)
  }

  /** The least name of a non-empty registry. */
  method Least(cmds: set<string>) returns (m: string)
    requires cmds != {}
    ensures m in cmds
    ensures forall n :: n in cmds && n != m ==> Below(m, n)
  {
    m :| m in cmds;
    var rest := cmds - {m};
    while rest != {}
      invariant rest <= cmds && m in cmds && m !in rest
      invariant forall n :: n in cmds && n !in rest && n != m ==> Below(m, n)
      decreases rest
    {
      var x :| x in rest;
      if Below(x, m) {
        forall n | n in cmds && n !in rest && n != x
          ensures Below(x, n)
        {
          if n != m {
            BelowTransitive(x, m, n);
          }
        }
        m := x;
      } else {
        BelowTotal(x, m);
      }
      rest := rest - {x};
    }
  }

  /** `sorted(cmds)`. */
  method SortedNames(cmds: set<string>) returns (names: seq<string>)
    ensures SortedListing(names, cmds)
    ensures |names| == |cmds|
  {
    names := [];
    var rest := cmds;
    while rest != {}
      invariant rest <= cmds
      invariant |names| + |rest| == |cmds|
      invariant StrictlySorted(names)
      invariant forall n :: n in names <==> n in cmds && n !in rest
      invariant forall i, n :: 0 <= i < |names| && n in rest ==> Below(names[i], n)
      decreases rest
    {
      var m := Least(rest);
      forall i, n | 0 <= i < |names| && n in rest - {m}
        ensures Below(names[i], n)
      {
      }
      names := names + [m];
      rest := rest - {m};
    }
  }

  /** Kept apart so that the empty-listing case of `SortedListingUnique`
      reaches its contradiction without a checked index in a dead branch. */
  lemma HeadIsElement(s: seq<string>)
    ensures |s| > 0 ==> s[0] in s
  {
  }

  /** Only one listing is sorted: `.help` prints the same lines whatever
      order the names were installed in. */
  lemma {:induction false} SortedListingUnique(a: seq<string>, b: seq<string>, cmds: set<string>)
    requires SortedListing(a, cmds) && SortedListing(b, cmds)
    ensures a == b
    decreases |a|
  {
    if |a| == 0 {
      if |b| > 0 {
        HeadIsElement(b);
        assert false;
      }
    } else {
      assert a[0] in b;
      assert |b| > 0;
      if a[0] != b[0] {
        assert b[0] in a;
        var i :| 0 <= i < |a| && a[i] == b[0];
        var j :| 0 <= j < |b| && b[j] == a[0];
        assert Below(a[0], b[0]);
        assert Below(b[0], a[0]);
        BelowTransitive(a[0], b[0], a[0]);
        BelowIrreflexive(a[0]);
      }
      var rest := cmds - {a[0]};
      forall n ensures n in a[1..] <==> n in rest {
        if n in a[1..] {
          var i :| 0 <= i < |a[1..]| && a[1..][i] == n;
          assert Below(a[0], a[i + 1]);
          BelowIrreflexive(a[0]);
        }
        if n in rest {
          assert n in a;
          var i :| 0 <= i < |a| && a[i] == n;
          assert i != 0;
          assert a[1..][i - 1] == n;
        }
      }
      forall n ensures n in b[1..] <==> n in rest {
        if n in b[1..] {
          var i :| 0 <= i < |b[1..]| && b[1..][i] == n;
          assert Below(b[0], b[i + 1]);
          BelowIrreflexive(b[0]);
        }
        if n in rest {
          assert n in b;
          var i :| 0 <= i < |b| && b[i] == n;
          assert i != 0;
          assert b[1..][i - 1] == n;
        }
      }
      SortedListingUnique(a[1..], b[1..], rest);
      assert a == [a[0]] + a[1..];
      assert b == [b[0]] + b[1..];
    }
  }
}

=== FILE: shell.dfy ===
/**
 The shell itself: the session the constructor builds and one turn of the
 command loop, which hands a line either to the registered dot-command it
 names or to the statement accumulator.
 */
module Shell {
  import opened Options
  import opened Text
  import opened State
  import opened Registry
  import Accumulator
  import Tracing
  import Commands

  /** `Shell.__init__`: default prompt, nothing pending, the nine built-in
      commands registered, neither trace active. */
  function Init(): (s: Session)
    ensures Wellformed(s) && s.buffer == []
    ensures |s.cmds| == 9 && forall n :: n in s.cmds <==> n in Builtins
    ensures !s.traced && !s.sqlTraced
  {
    var cmds := InitialCommands();
    var s := Session(DefaultPrompt, [], cmds, false, false);
    assert Wellformed(s);
    s
  }

  /** One line as `cmd.Cmd.parseline` splits it: the leading command word,
      the stripped rest, and the line itself. */
  datatype Input = Input(word: string, arg: string, line: string)

  /** What a registered command writes and asks of the engine when run on
      the rest of its line. */
  ghost predicate Answers(s: Session, command: Command, arg: string, o: Oracles, outcome: ExecOutcome, out: seq<Event>) {
    match command
    case TraceCommand => out == Tracing.Trace(s, arg).out
    case UntraceCommand => out == Tracing.Untrace(s, arg).out
    case HelpCommand => Commands.HelpOutput(s.cmds, arg, o.repr, out)
    case CsvCommand => out == Commands.RunLoader(CsvFile, arg, outcome)
    case CodebookCommand => out == Commands.RunLoader(CodebookFile, arg, outcome)
    case LoadModelsCommand => out == Commands.RunLoader(LegacyModels, arg, outcome)
    case DescribeCommand => out == Commands.Describe(o, arg)
    case SqlCommand => out == [SqlExecute(arg)] + Report(outcome)
    case PythonCommand => out == [Evaluate(arg)] + Report(outcome)
  }

  /** Runs one registered command on the rest of its line. Only `.trace`
      and `.untrace` touch the session, and only its trace flags. */
  method Run(s: Session, command: Command, arg: string, o: Oracles, outcome: ExecOutcome) returns (r: Reply)
    requires Name(command) in s.cmds
    ensures !r.stop
    ensures Tracing.SameShell(s, r.session)
    ensures command == TraceCommand ==> r == Tracing.Trace(s, arg)
    ensures command == UntraceCommand ==> r == Tracing.Untrace(s, arg)
    ensures command != TraceCommand && command != UntraceCommand ==> r.session == s
    ensures Answers(s, command, arg, o, outcome, r.out)
  {
    match command
    case TraceCommand =>
      r := Tracing.Trace(s, arg);
    case UntraceCommand =>
      r := Tracing.Untrace(s, arg);
    case HelpCommand =>
      var out := Commands.Help(s.cmds, arg, o.repr);
      r := Reply(s, out, false);
    case CsvCommand =>
      r := Reply(s, Commands.RunLoader(CsvFile, arg, outcome), false);
    case CodebookCommand =>
      r := Reply(s, Commands.RunLoader(CodebookFile, arg, outcome), false);
    case LoadModelsCommand =>
      r := Reply(s, Commands.RunLoader(LegacyModels, arg, outcome), false);
    case DescribeCommand =>
      r := Reply(s, Commands.Describe(o, arg), false);
    case SqlCommand =>
      r := Reply(s, [SqlExecute(arg)] + Report(outcome), false);
    case PythonCommand =>
      r := Reply(s, [Evaluate(arg)] + Report(outcome), false);
  }

  /** A command word resolves to `.trace`'s handler exactly when it is
      `.trace` and `trace` is registered; likewise for `.untrace`. */
  lemma LookupTracing(cmds: set<string>, word: string)
    ensures Lookup(cmds, word) == Some(TraceCommand) <==> "trace" in cmds && word == ".trace"
    ensures Lookup(cmds, word) == Some(UntraceCommand) <==> "untrace" in cmds && word == ".untrace"
  {
    assert ".trace" == "." + Name(TraceCommand);
    assert ".untrace" == "." + Name(UntraceCommand);
  }

  /** One turn of `cmdloop`: a command word naming a registered command runs
      its handler on the rest of the line, which never touches the pending
      statement and never stops the loop; any other line goes to the
      accumulator. The registry itself never changes. `outcome` is how the
      one guarded engine call of the turn ends, if it makes one. */
  method Step(s: Session, input: Input, o: Oracles, outcome: ExecOutcome) returns (r: Reply)
    ensures r.session.cmds == s.cmds
    ensures Wellformed(s) ==> Wellformed(r.session)
    ensures Lookup(s.cmds, input.word).None? ==> r == Accumulator.Default(s, input.line, o.complete, outcome)
    ensures Lookup(s.cmds, input.word).Some? ==>
      && !r.stop
      && r.session.buffer == s.buffer
      && r.session.prompt == s.prompt
      && Answers(s, Lookup(s.cmds, input.word).value, input.arg, o, outcome, r.out)
    ensures "trace" in s.cmds && input.word == ".trace" ==> r == Tracing.Trace(s, input.arg)
    ensures "untrace" in s.cmds && input.word == ".untrace" ==> r == Tracing.Untrace(s, input.arg)
    ensures r.session.traced != s.traced || r.session.sqlTraced != s.sqlTraced ==>
      input.word == ".trace" || input.word == ".untrace"
  {
    LookupTracing(s.cmds, input.word);
    match Lookup(s.cmds, input.word)
    case None =>
      r := Accumulator.Default(s, input.line, o.complete, outcome);
    case Some(command) =>
      r := Run(s, command, input.arg, o, outcome);
  }

  /** Every handler is reachable in a fresh session: `.<name>` resolves to
      the handler installed under that name. */
  lemma InitResolvesEveryCommand(c: Command)
    ensures Lookup(Init().cmds, "." + Name(c)) == Some(c)
  {
    NameIsBuiltin(c);
  }
}

=== FILE: state.dfy ===
/**
 The shell's long-lived state, the record of what one step does, and the
 external collaborators the shell consults but does not implement.
 */
module State {

  const DefaultPrompt := "bayeslite> "
  /** Shown while a BQL statement is still incomplete. */
  const BqlPrompt := "   bql...> "
  /** Written when the input line is `EOF` (which is also how end of input is reported). */
  const Farewell := "\nMoriturus te querio.\n"

  /** The two statement languages that can be traced. */
  datatype Lang = Bql | Sql

  /** The entities `.describe table(s)` and `.describe generator(s)` name. */
  datatype Entity = Table | Generator

  /** The legacy loaders behind `.csv`, `.codebook` and `.loadmodels`. */
  datatype Loader = CsvFile | CodebookFile | LegacyModels

  /** What one step does that is visible outside the session: text written
      to the output stream, and calls into the engine, in order. SQL text
      that the shell only passes through is abstracted to the call and the
      part of it the shell builds (qualifier and parameters). */
  datatype Event =
    | Write(text: string)
    | Execute(bql: string)
    | SqlExecute(sql: string)
    | Evaluate(expression: string)
    | Subscribe(lang: Lang)
    | Unsubscribe(lang: Lang)
    | Load(loader: Loader, args: seq<string>)
    | Summary(name: string)
    | Usage(name: string)
    | GuaranteeColumns(table: string)
    | DescribeEntities(entity: Entity, qualifier: string, params: seq<string>)
    | DescribeColumns(generatorId: int)
    | DescribeModels(generatorId: int, qualifier: string)

  /** How an external call that the shell guards with `except Exception`
      ended: `shown` is whatever was printed before it returned or raised,
      `diagnostic` the formatted traceback. */
  datatype ExecOutcome = Completed(shown: string) | Raised(shown: string, diagnostic: string)

  /** What the shell writes after a guarded external call: a failure never
      escapes, its diagnostic is written instead. */
  function Report(outcome: ExecOutcome): (r: seq<Event>)
    ensures |r| >= 1 && r[0] == Write(outcome.shown)
    ensures outcome.Raised? <==> |r| == 2
    ensures outcome.Raised? ==> r[1] == Write(outcome.diagnostic)
  {
    match outcome
    case Completed(shown) => [Write(shown)]
    case Raised(shown, diagnostic) => [Write(shown), Write(diagnostic)]
  }

  /** The engine and host functions the shell calls but does not define. */
  datatype Oracles = Oracles(
    complete: string -> bool,           // is the buffered text a complete BQL phrase
    casefold: string -> string,          // case folding of a describe keyword
    repr: string -> string,              // Python repr of a string
    hasTable: string -> bool,
    hasGenerator: string -> bool,
    generatorId: string -> int,
    hasModel: (int, int) -> bool)        // generator id, model number

  /** The session: prompt, pending BQL text, registered command names, and
      the two trace flags. */
  datatype Session = Session(
    prompt: string,
    buffer: string,
    cmds: set<string>,
    traced: bool,
    sqlTraced: bool)

  /** The accumulator's invariant: idle (empty buffer, default prompt) or
      accumulating (continuation prompt, buffer ending in a newline). */
  predicate Wellformed(s: Session) {
    && (s.prompt == DefaultPrompt || s.prompt == BqlPrompt)
    && (s.buffer == [] <==> s.prompt == DefaultPrompt)
    && (s.buffer != [] ==> s.buffer[|s.buffer| - 1] == '\n')
  }

  /** The result of one step: the new session, what it did, and whether the
      command loop stops. */
  datatype Reply = Reply(session: Session, out: seq<Event>, stop: bool)
}

=== FILE: text.dfy ===
/**
 The string helpers the shell leans on: Python 2 `str.split()` with no
 separator, `str.join`, byte-wise string ordering as used by `sorted`, and
 the decimal conversions done by `int(token)` and `str(n)` / `'%d'`.
 */
module Text {
  import opened Options

  /** The separators `str.split()` recognises in a Python 2 byte string:
      space and the control characters tab through carriage return. */
  predicate IsSpace(c: char) {
    c == ' ' || '\t' <= c <= '\r'
  }

  /** A token produced by `str.split()`: non-empty and free of separators. */
  predicate IsWord(w: string) {
    |w| > 0 && forall i :: 0 <= i < |w| ==> !IsSpace(w[i])
  }

  function Concat(parts: seq<string>): string {
    if |parts| == 0 then [] else parts[0] + Concat(parts[1..])
  }

  /** The characters of `s` that are not separators, in order. */
  function NonSpace(s: string): string {
    if |s| == 0 then [] else (if IsSpace(s[0]) then [] else [s[0]]) + NonSpace(s[1..])
  }

  /** Length of the run of non-separators at the front of `s`. */
  function WordLength(s: string): (n: nat)
    ensures n <= |s|
    ensures forall i :: 0 <= i < n ==> !IsSpace(s[i])
    ensures n == |s| || IsSpace(s[n])
  {
    if |s| == 0 || IsSpace(s[0]) then 0 else 1 + WordLength(s[1..])
  }

  lemma {:induction false} NonSpaceOfWordPrefix(s: string, n: nat)
    requires n <= |s|
    requires forall i :: 0 <= i < n ==> !IsSpace(s[i])
    ensures NonSpace(s) == s[..n] + NonSpace(s[n..])
    decreases n
  {
    if n == 0 {
      assert s[n..] == s;
    } else {
      NonSpaceOfWordPrefix(s[1..], n - 1);
      assert s[1..][..n - 1] == s[1..n];
      assert s[1..][n - 1..] == s[n..];
      assert s[..n] == [s[0]] + s[1..n];
    }
  }

  /** `s.split()`: the maximal runs of non-separators, in order. Nothing but
      separators is dropped, and no token is empty or holds a separator. */
  function Split(s: string): (r: seq<string>)
    ensures forall i :: 0 <= i < |r| ==> IsWord(r[i])
    ensures Concat(r) == NonSpace(s)
    decreases |s|
  {
    if |s| == 0 then []
    else if IsSpace(s[0]) then Split(s[1..])
    else
      var n := WordLength(s);
      NonSpaceOfWordPrefix(s, n);
      [s[..n]] + Split(s[n..])
  }

  /** `sep.join(parts)`. */
  function Join(parts: seq<string>, sep: string): string {
    if |parts| == 0 then []
    else if |parts| == 1 then parts[0]
    else parts[0] + sep + Join(parts[1..], sep)
  }

  lemma {:induction false} WordLengthOfWord(w: string, rest: string)
    requires IsWord(w)
    requires rest == [] || IsSpace(rest[0])
    ensures WordLength(w + rest) == |w|
    decreases |w|
  {
    var s := w + rest;
    if |w| == 1 {
      assert s[1..] == rest;
    } else {
      assert s[1..] == w[1..] + rest;
      assert IsWord(w[1..]) by {
        forall i | 0 <= i < |w| - 1 ensures !IsSpace(w[1..][i]) {
          assert w[1..][i] == w[i + 1];
        }
      }
      WordLengthOfWord(w[1..], rest);
    }
  }

  /** Splitting words joined by single spaces gives the words back. */
  lemma {:induction false} SplitJoin(words: seq<string>)
    requires forall i :: 0 <= i < |words| ==> IsWord(words[i])
    ensures Split(Join(words, " ")) == words
    decreases |words|
  {
    if |words| == 1 {
      var w := words[0];
      WordLengthOfWord(w, []);
      assert w + [] == w;
      assert w[..|w|] == w;
      assert w[|w|..] == [];
    } else if |words| > 1 {
      var w := words[0];
      var rest := Join(words[1..], " ");
      var s := w + " " + rest;
      assert s == w + (" " + rest);
      WordLengthOfWord(w, " " + rest);
      assert s[..|w|] == w;
      assert s[|w|..] == " " + rest;
      assert (" " + rest)[1..] == rest;
      SplitJoin(words[1..]);
      assert words == [w] + words[1..];
    }
  }

  /** `s` with its leading and trailing separators dropped and every inner
      run of separators collapsed to one blank, read left to right:
      `started` says a word has been seen, `pending` that a separator has
      followed it since. */
  function SqueezeFrom(s: string, started: bool, pending: bool): string
    decreases |s|
  {
    if |s| == 0 then []
    else if IsSpace(s[0]) then SqueezeFrom(s[1..], started, started)
    else (if pending then " " else []) + [s[0]] + SqueezeFrom(s[1..], true, false)
  }

  function Squeeze(s: string): string {
    SqueezeFrom(s, false, false)
  }

  /** Inside a word, the squeezed text copies the word's characters. */
  lemma {:induction false} SqueezeInWord(s: string, n: nat)
    requires n <= |s|
    requires forall i :: 0 <= i < n ==> !IsSpace(s[i])
    ensures SqueezeFrom(s, true, false) == s[..n] + SqueezeFrom(s[n..], true, false)
    decreases n
  {
    if n == 0 {
      assert s[n..] == s;
    } else {
      SqueezeInWord(s[1..], n - 1);
      assert s[1..][n - 1..] == s[n..];
      assert s[..n] == [s[0]] + s[1..][..n - 1];
    }
  }

  /** A word at the front of `s` is copied whole, after one blank if one is
      pending, and is the first token. */
  lemma WordFirst(s: string, p: bool)
    requires |s| > 0 && !IsSpace(s[0])
    ensures var n := WordLength(s);
      && SqueezeFrom(s, p, p) == (if p then " " else []) + s[..n] + SqueezeFrom(s[n..], true, false)
      && Split(s) == [s[..n]] + Split(s[n..])
  {
    var n := WordLength(s);
    WordFirstSqueeze(s, p, n);
  }

  lemma WordFirstSqueeze(s: string, p: bool, n: nat)
    requires |s| > 0 && !IsSpace(s[0]) && n == WordLength(s)
    ensures SqueezeFrom(s, p, p) == (if p then " " else []) + s[..n] + SqueezeFrom(s[n..], true, false)
  {
    var pad: string := if p then " " else [];
    var t, m := s[1..], n - 1;
    assert m == WordLength(t);
    SqueezeInWord(t, m);
    var rest := SqueezeFrom(t[m..], true, false);
    assert t[m..] == s[n..];
    assert [s[0]] + t[..m] == s[..n];
    calc {
      SqueezeFrom(s, p, p);
      pad + [s[0]] + SqueezeFrom(t, true, false);
      pad + [s[0]] + (t[..m] + rest);
      pad + ([s[0]] + t[..m]) + rest;
    }
  }

  /** Right after a word, a separator opens the gap to the next word. */
  lemma AfterWord(t: string)
    requires |t| > 0 && IsSpace(t[0])
    ensures SqueezeFrom(t, true, false) == SqueezeFrom(t[1..], true, true)
    ensures Split(t) == Split(t[1..])
  {
  }

  lemma JoinCons(w: string, ws: seq<string>)
    ensures Join([w] + ws, " ") == if ws == [] then w else w + " " + Join(ws, " ")
  {
    if ws != [] {
      assert ([w] + ws)[1..] == ws;
    }
  }

  /** A word followed by the squeezed rest is the word joined to the rest's tokens. */
  lemma WordThenTokens(w: string, ws: seq<string>, tail: string)
    requires tail == (if ws != [] then " " else []) + Join(ws, " ")
    ensures w + tail == Join([w] + ws, " ")
  {
    JoinCons(w, ws);
  }

  /** Between words, the squeezed text is the tokens joined by blanks,
      preceded by one blank when a word came before. */
  lemma {:induction false} SqueezeBetweenWords(s: string, p: bool)
    ensures SqueezeFrom(s, p, p) == (if p && Split(s) != [] then " " else []) + Join(Split(s), " ")
    decreases |s|, 1
  {
    if |s| == 0 {
    } else if IsSpace(s[0]) {
      SqueezeBetweenWords(s[1..], p);
    } else {
      SqueezeAtWord(s, p);
    }
  }

  /** The case of `SqueezeBetweenWords` where a word starts the text. */
  lemma {:induction false} SqueezeAtWord(s: string, p: bool)
    requires |s| > 0 && !IsSpace(s[0])
    ensures SqueezeFrom(s, p, p) == (if p then " " else []) + Join(Split(s), " ")
    decreases |s|, 0
  {
    var pad: string := if p then " " else [];
    var n := WordLength(s);
    var w, tail := s[..n], SqueezeFrom(s[n..], true, false);
    WordFirst(s, p);
    SqueezeAfterWord(s[n..]);
    WordThenTokens(w, Split(s[n..]), tail);
    assert pad + w + tail == pad + (w + tail);
  }

  /** What follows a word: nothing, or a separator and then more text. */
  lemma {:induction false} SqueezeAfterWord(t: string)
    requires t == [] || IsSpace(t[0])
    ensures SqueezeFrom(t, true, false) == (if Split(t) != [] then " " else []) + Join(Split(t), " ")
    decreases |t|, 2
  {
    if t != [] {
      AfterWord(t);
      SqueezeBetweenWords(t[1..], true);
    }
  }

  /** `str.split()` neither breaks nor merges words: its tokens joined by
      single blanks are the line with its separator runs collapsed. */
  lemma SplitSqueeze(s: string)
    ensures Join(Split(s), " ") == Squeeze(s)
  {
    SqueezeBetweenWords(s, false);
  }

  /** Python 2 byte-string comparison `a < b`: the first differing character
      decides, and a proper prefix sorts first. */
  predicate Below(a: string, b: string) {
    if |a| == 0 then |b| > 0
    else if |b| == 0 then false
    else if a[0] != b[0] then a[0] < b[0]
    else Below(a[1..], b[1..])
  }

  lemma BelowIrreflexive(a: string)
    ensures !Below(a, a)
  {
  }

  lemma {:induction false} BelowTransitive(a: string, b: string, c: string)
    requires Below(a, b) && Below(b, c)
    ensures Below(a, c)
    decreases |a|
  {
    if |a| > 0 && |b| > 0 && |c| > 0 && a[0] == b[0] && b[0] == c[0] {
      BelowTransitive(a[1..], b[1..], c[1..]);
    }
  }

  lemma {:induction false} BelowTotal(a: string, b: string)
    requires a != b
    ensures Below(a, b) || Below(b, a)
    decreases |a|
  {
    if |a| > 0 && |b| > 0 && a[0] == b[0] {
      assert a == [a[0]] + a[1..];
      assert b == [b[0]] + b[1..];
      BelowTotal(a[1..], b[1..]);
    }
  }

  predicate StrictlySorted(s: seq<string>) {
    forall i, j :: 0 <= i < j < |s| ==> Below(s[i], s[j])
  }

  /** Number of occurrences of `c` in `s`. */
  function Count(c: char, s: string): nat {
    if |s| == 0 then 0 else (if s[0] == c then 1 else 0) + Count(c, s[1..])
  }

  lemma {:induction false} CountAppend(c: char, a: string, b: string)
    ensures Count(c, a + b) == Count(c, a) + Count(c, b)
    decreases |a|
  {
    if |a| == 0 {
      assert a + b == b;
    } else {
      assert (a + b)[1..] == a[1..] + b;
      CountAppend(c, a[1..], b);
    }
  }

  predicate IsDigit(c: char) {
    '0' <= c <= '9'
  }

  predicate AllDigits(s: string) {
    forall i :: 0 <= i < |s| ==> IsDigit(s[i])
  }

  /** The value of a string of decimal digits, most significant first. */
  function DigitsValue(s: string): nat
    requires AllDigits(s)
    decreases |s|
  {
    if |s| == 0 then 0 else 10 * DigitsValue(s[..|s| - 1]) + (s[|s| - 1] as int - '0' as int)
  }

  /** `str(n)` for a non-negative `n`: a non-empty digit string denoting `n`. */
  function NatToDecimal(n: nat): (r: string)
    ensures |r| > 0 && AllDigits(r) && DigitsValue(r) == n
    ensures r[0] != '0' || n == 0
  {
    var d := ('0' as int + n % 10) as char;
    if n < 10 then [d]
    else
      var p := NatToDecimal(n / 10);
      var r := p + [d];
      assert r[..|r| - 1] == p;
      r
  }

  /** `str(n)` / `'%d' % n` for any integer. */
  function IntToDecimal(n: int): string {
    if n < 0 then "-" + NatToDecimal(-n) else NatToDecimal(n)
  }

  /** `int(token)` on a separator-free token: an optional sign followed by at
      least one decimal digit; anything else is a `ValueError` (None). */
  function ParseInt(s: string): (r: Option<int>)
    ensures r.Some? <==> |s| > 0 && (AllDigits(s) || ((s[0] == '+' || s[0] == '-') && |s| > 1 && AllDigits(s[1..])))
    ensures r.Some? && s[0] == '-' ==> r.value <= 0
    ensures r.Some? && s[0] != '-' ==> r.value >= 0
  {
    if |s| > 0 && (s[0] == '+' || s[0] == '-') then
      var digits := s[1..];
      if |digits| > 0 && AllDigits(digits) then
        var magnitude: int := DigitsValue(digits);
        Some(if s[0] == '-' then -magnitude else magnitude)
      else None
    else if |s| > 0 && AllDigits(s) then Some(DigitsValue(s))
    else None
  }

  /** Printing a number in decimal and parsing it back gives the number. */
  lemma ParseIntToDecimal(n: int)
    ensures ParseInt(IntToDecimal(n)) == Some(n)
  {
    if n < 0 {
      var r := NatToDecimal(-n);
      assert ("-" + r)[1..] == r;
    }
  }

  /** A leading zero does not change the value of a digit string. */
  lemma {:induction false} DigitsValueLeadingZero(t: string)
    requires AllDigits(t)
    ensures AllDigits("0" + t) && DigitsValue("0" + t) == DigitsValue(t)
    decreases |t|
  {
    var z := "0" + t;
    assert AllDigits(z) by {
      forall i | 0 <= i < |z| ensures IsDigit(z[i]) {
        if i > 0 { assert z[i] == t[i - 1]; }
      }
    }
    if |t| > 0 {
      var init := t[..|t| - 1];
      assert AllDigits(init) by {
        forall i | 0 <= i < |init| ensures IsDigit(init[i]) {
          assert init[i] == t[i];
        }
      }
      DigitsValueLeadingZero(init);
      assert z[..|z| - 1] == "0" + init;
      assert z[|z| - 1] == t[|t| - 1];
    }
  }

  /** `int` of a digit string is the value of its digits. */
  lemma ParseIntOfDigits(t: string)
    requires |t| > 0 && AllDigits(t)
    ensures ParseInt(t) == Some(DigitsValue(t) as int)
  {
    assert IsDigit(t[0]);
  }

  /** `int` reads the digits after leading zeros and an optional sign the
      same way, so the value of every accepted token is fixed by its digits:
      `07` is 7, `+5` is 5 and `-5` is the negation of 5. */
  lemma ParseIntIgnoresZerosAndSign(t: string)
    requires |t| > 0 && AllDigits(t)
    ensures ParseInt("0" + t) == ParseInt(t)
    ensures ParseInt("+" + t) == ParseInt(t)
    ensures ParseInt("-" + t) == Some(-(DigitsValue(t) as int))
  {
    ParseIntOfDigits(t);
    DigitsValueLeadingZero(t);
    ParseIntOfDigits("0" + t);
    ParseIntSigned(t, '+');
    ParseIntSigned(t, '-');
  }

  lemma ParseIntSigned(t: string, sign: char)
    requires |t| > 0 && AllDigits(t) && (sign == '+' || sign == '-')
    ensures ParseInt([sign] + t) == Some(if sign == '-' then -(DigitsValue(t) as int) else DigitsValue(t))
  {
    var s := [sign] + t;
    assert s[0] == sign && s[1..] == t;
  }

  /** A token with a character after its first that is not a digit is rejected. */
  lemma ParseIntRejectsNonDigit(s: string, i: nat)
    requires IsWord(s)
    requires 0 < i < |s| && !IsDigit(s[i])
    ensures ParseInt(s) == None
  {
    if s[0] == '+' || s[0] == '-' {
      assert s[1..][i - 1] == s[i];
    }
  }
}

=== FILE: tracing.dfy ===
/**
 `.trace` and `.untrace`: two independent flags guarding the engine's
 trace subscriptions, so that the engine is called only when a flag
 actually changes.
 */
module Tracing {
  import opened Options
  import opened Text
  import opened State

  function Flag(s: Session, lang: Lang): bool {
    match lang
    case Bql => s.traced
    case Sql => s.sqlTraced
  }

  function Other(lang: Lang): Lang {
    match lang
    case Bql => Sql
    case Sql => Bql
  }

  /** The language an argument names: exactly `bql` or `sql`. */
  function LangOf(arg: string): (r: Option<Lang>)
    ensures r == Some(Bql) <==> arg == "bql"
    ensures r == Some(Sql) <==> arg == "sql"
  {
    if arg == "bql" then Some(Bql) else if arg == "sql" then Some(Sql) else None
  }

  /** Everything but the trace flags. */
  predicate SameShell(s: Session, t: Session) {
    t.prompt == s.prompt && t.buffer == s.buffer && t.cmds == s.cmds
  }

  /** Sets the flag of `lang` to `on`, calling the engine only if it changes. */
  function Toggle(s: Session, lang: Lang, on: bool): (r: Reply) {
    if Flag(s, lang) == on then Reply(s, [], false)
    else
      var t := match lang case Bql => s.(traced := on) case Sql => s.(sqlTraced := on);
      Reply(t, [if on then Subscribe(lang) else Unsubscribe(lang)], false)
  }

  /** `dot_trace(arg)`: subscribes the tracer of the named language unless
      it is already subscribed; any other argument is only complained about. */
  function Trace(s: Session, arg: string): (r: Reply)
    ensures !r.stop && SameShell(s, r.session)
    ensures LangOf(arg).None? ==> r == Reply(s, [Write("Trace what?\n")], false)
    ensures LangOf(arg).Some? ==>
      var lang := LangOf(arg).value;
      && Flag(r.session, lang)
      && Flag(r.session, Other(lang)) == Flag(s, Other(lang))
      && r.out == (if Flag(s, lang) then [] else [Subscribe(lang)])
  {
    match LangOf(arg)
    case Some(lang) => Toggle(s, lang, true)
    case None => Reply(s, [Write("Trace what?\n")], false)
  }

  /** `dot_untrace(arg)`: unsubscribes the tracer of the named language if
      it is subscribed; any other argument is only complained about. */
  function Untrace(s: Session, arg: string): (r: Reply)
    ensures !r.stop && SameShell(s, r.session)
    ensures LangOf(arg).None? ==> r == Reply(s, [Write("Untrace what?\n")], false)
    ensures LangOf(arg).Some? ==>
      var lang := LangOf(arg).value;
      && !Flag(r.session, lang)
      && Flag(r.session, Other(lang)) == Flag(s, Other(lang))
      && r.out == (if Flag(s, lang) then [Unsubscribe(lang)] else [])
  {
    match LangOf(arg)
    case Some(lang) => Toggle(s, lang, false)
    case None => Reply(s, [Write("Untrace what?\n")], false)
  }

  /** Repeating either command changes nothing and calls nothing more. */
  lemma TraceIdempotent(s: Session, arg: string)
    requires LangOf(arg).Some?
    ensures Trace(Trace(s, arg).session, arg) == Reply(Trace(s, arg).session, [], false)
    ensures Untrace(Untrace(s, arg).session, arg) == Reply(Untrace(s, arg).session, [], false)
  {
  }

  datatype Request = TraceRequest(arg: string) | UntraceRequest(arg: string)

  function Apply(s: Session, q: Request): Reply {
    match q
    case TraceRequest(arg) => Trace(s, arg)
    case UntraceRequest(arg) => Untrace(s, arg)
  }

  /** A sequence of `.trace` / `.untrace` commands, with their events in order. */
  function Requests(s: Session, qs: seq<Request>): (r: Reply)
    ensures !r.stop && SameShell(s, r.session)
    decreases |qs|
  {
    if |qs| == 0 then Reply(s, [], false)
    else
      var first := Apply(s, qs[0]);
      var rest := Requests(first.session, qs[1..]);
      Reply(rest.session, first.out + rest.out, false)
  }

  /** The engine's view of one language's subscription, replayed from the
      calls it received starting from `subscribed`: the final state, or None
      if it was ever asked to subscribe twice or to drop a subscription it
      did not have. */
  function Replay(subscribed: bool, lang: Lang, events: seq<Event>): Option<bool>
    decreases |events|
  {
    if |events| == 0 then Some(subscribed)
    else if events[0] == Subscribe(lang) then
      if subscribed then None else Replay(true, lang, events[1..])
    else if events[0] == Unsubscribe(lang) then
      if subscribed then Replay(false, lang, events[1..]) else None
    else Replay(subscribed, lang, events[1..])
  }

  lemma {:induction false} ReplayAppend(subscribed: bool, lang: Lang, a: seq<Event>, b: seq<Event>)
    ensures Replay(subscribed, lang, a + b)
         == match Replay(subscribed, lang, a)
            case None => None
            case Some(mid) => Replay(mid, lang, b)
    decreases |a|
  {
    if |a| == 0 {
      assert a + b == b;
    } else {
      assert (a + b)[0] == a[0];
      assert (a + b)[1..] == a[1..] + b;
      if a[0] == Subscribe(lang) {
        ReplayAppend(true, lang, a[1..], b);
      } else if a[0] == Unsubscribe(lang) {
        ReplayAppend(false, lang, a[1..], b);
      } else {
        ReplayAppend(subscribed, lang, a[1..], b);
      }
    }
  }

  /** However `.trace` and `.untrace` are interleaved, the engine is never
      asked to subscribe twice or to unsubscribe what it does not have, and
      its subscriptions always agree with the shell's flags. */
  lemma {:induction false} FlagsAgreeWithEngine(s: Session, qs: seq<Request>, lang: Lang)
    ensures Replay(Flag(s, lang), lang, Requests(s, qs).out) == Some(Flag(Requests(s, qs).session, lang))
    decreases |qs|
  {
    if |qs| > 0 {
      var first := Apply(s, qs[0]);
      var rest := Requests(first.session, qs[1..]);
      assert Replay(Flag(s, lang), lang, first.out) == Some(Flag(first.session, lang));
      FlagsAgreeWithEngine(first.session, qs[1..], lang);
      ReplayAppend(Flag(s, lang), lang, first.out, rest.out);
    }
  }

  /** Two `.trace sql` then two `.untrace sql` reach the engine as exactly one
      subscribe and one unsubscribe, and leave the BQL flag alone. */
  lemma TraceTwiceUntraceTwice(s: Session)
    requires !s.sqlTraced
    ensures var qs := [TraceRequest("sql"), TraceRequest("sql"), UntraceRequest("sql"), UntraceRequest("sql")];
      && Requests(s, qs).out == [Subscribe(Sql), Unsubscribe(Sql)]
      && Requests(s, qs).session == s
  {
  }
}
